=== FILE: README.md ===
# Attendance outcome rule of the guides' attendance app

The application lets volunteer guides record the attendance of their mentees
at two weekly sessions, Thursday and Saturday. A guide submits a session date
in the Jalali calendar, a requested status ("present" or another value) and
an optional clock time. The `record_attendance` and `update_attendance`
handlers then:

1. convert the Jalali date to a Gregorian weekday. A malformed date is
   answered with the date-format message, and nothing is written;
2. for a requested "present" with a non-empty time that `time.fromisoformat`
   accepts, turn the status into "late" when the time is strictly after
   14:00 on Thursday (weekday 3) or strictly after 17:00 on Saturday
   (weekday 5). An unparseable time is ignored;
3. refuse every weekday other than 3 and 5 with the session-day message;
4. insert the record, or update it. The stored date and time are the form's
   own text, and the stored status is the final one.

The model has five modules:

- `Clock` holds Python's `datetime.time` values and the `>` comparison
  against a naive cutoff. That comparison is Python's tuple comparison on
  (hour, minute, second, microsecond). It is proved to agree with the order
  of microseconds since midnight.
- `Lateness` holds the weekday and status constants, the escalation step as
  the handlers branch it, and an independent reference rule
  (`CutoffOn`, `ArrivesLate`) with the lemmas that connect them.
- `Attendance` holds the `Outcome` of one submission, the two handlers with
  their writes, and the lemmas that both handlers agree.
- `Guards` holds the CD-count guard of `record_guide_cds` and the
  required-field check of `admin_add_guide`.
- `Wrappers` holds the `Option` type.

The two library parses are parameters of the model. The Jalali date parse
(`jdatetime` plus `weekday()`) has type `string -> Option<Weekday>`. The time
parse `time.fromisoformat` has type `string -> Option<Time>`. `None` stands
for the ValueError each can raise. Password hashing and werkzeug's `int`
conversion of the CD count are parameters in the same way.

`time.fromisoformat` accepts a UTC offset, as in "15:00+03:30". Python
refuses to order an aware time against the naive `time(14, 0)` and raises
TypeError. The handler catches only ValueError, so the request fails with a
server error and nothing is written. This happens only for a requested
"present" on a Thursday or a Saturday. The model keeps this as
`Outcome.UncaughtTypeError`.

The handlers do not check the status: whatever string was submitted is
stored, escalated or not. `Attendance.StoredStatusStaysInVocabulary` states
what does hold: the handlers add no value except "late".

The session-day check runs after escalation and before any write, and
`Attendance.Classify` follows that order.

## Model

| member | source | states |
|---|---|---|
| Clock.Greater | app.py:203-205 | comparing a session time with a naive cutoff raises TypeError exactly when the session time carries a UTC offset |
| Clock.TupleGreaterIsLaterInDay | app.py:203-205 | on valid times, Python's field-by-field comparison holds exactly when the first time is later in the day, counted in microseconds since midnight |
| Clock.GreaterIsLaterInDay | app.py:203-205 | for two naive valid times, `a > b` answers whether `a` is the later instant |
| Lateness.SessionTime | app.py:194-208 | a missing or empty time field gives no time to compare; a non-empty one gives exactly what the ISO parse returns, and a parse failure gives none |
| Lateness.Escalate | app.py:200-208 | the lateness step raises only for "present" with an aware time on a session day; when it changes the status, the result is "late", the request was "present" and the day is Thursday or Saturday |
| Lateness.EscalateMatchesCutoffRule | app.py:203-206 | for every naive parsed time, the handlers' branching equals the reference rule: "present" becomes "late" exactly when the time is past the day's cutoff; every other status is kept |
| Lateness.ThursdayBoundary | app.py:203-204 | on Thursday "present" becomes "late" exactly when the time is strictly after 14:00:00.000000, and otherwise stays "present" |
| Lateness.SaturdayBoundary | app.py:205-206 | on Saturday "present" becomes "late" exactly when the time is strictly after 17:00:00.000000, and otherwise stays "present" |
| Lateness.BoundaryExamples | app.py:203-206 | 14:00 on Thursday and 17:00 on Saturday stay "present", one microsecond later is "late", and 15:00 on Saturday stays "present" because the Thursday cutoff does not apply |
| Lateness.OtherStatusKept | app.py:200 | a requested status other than "present" is kept, whatever the weekday or time |
| Lateness.NoEscalationOffSessionDays | app.py:203-206 | on weekdays other than Thursday and Saturday nothing is escalated and nothing is raised |
| Lateness.UnusableTimeKeepsStatus | app.py:200-208 | a missing, empty or unparseable time leaves the status unchanged and raises no error |
| Lateness.LatenessIsMonotone | app.py:203-206 | if a time is late on some day, every later time on that day is late too |
| Attendance.Classify | app.py:195-209 | the outcome is the date-format error exactly when the date does not parse, and the wrong-day refusal exactly when a parsed weekday is not 3 or 5; a record is stored only on a session day, with the requested status or "late" in place of "present" |
| Attendance.Rejection | app.py:198-209 | an outcome that writes nothing never gets the dashboard redirect: the date-format message, the session-day message, or the server error of the escaped TypeError |
| Attendance.RecordAttendance | app.py:188-217 | a malformed date gives the date-format reply and no write; an insert happens exactly when the reply is the dashboard redirect, only on a session day, carrying the mentee, the raw date and time text, and the requested status, or "late" in place of "present" |
| Attendance.UpdateAttendance | app.py:250-279 | the same guarantees as record, for an update of the given record id: the raw date and time text, and the requested status, or "late" in place of "present" |
| Attendance.MalformedDateRejects | app.py:195-199 | an unparseable date yields the date-format error, and neither handler writes, whatever the status and time |
| Attendance.WrittenOnlyOnSessionDays | app.py:209-213 | a record is written exactly when the date parses to weekday 3 or 5 and the lateness step raised nothing; any other parsed weekday gets the session-day message and no write |
| Attendance.RecordAndUpdateAgree | app.py:257-275 | for the same form, the two handlers give the same reply, write in the same cases and store the same final status |
| Attendance.StoredStatusFollowsCutoffRule | app.py:200-213 | on a session day with a naive parsed time, the stored status is "late" exactly when "present" was requested past that day's cutoff, and otherwise the requested status |
| Attendance.ThursdayAfterCutoffStoresLate | app.py:203-204 | "present" at 14:01 on a Thursday is stored as "late" |
| Attendance.StoredStatusStaysInVocabulary | app.py:200-213 | if the requested status lies in a vocabulary that contains "late", so does the stored status |
| Guards.CdCount | app.py:224 | a missing or non-integer CD count reads as 0; a field that converts yields exactly the converted integer |
| Guards.RecordGuideCds | app.py:220-234 | a CD row is inserted exactly when the count field converts to an integer strictly greater than 0, and the row carries the guide, the date text and that count |
| Guards.RecordGuideCdsKeepsCountsPositive | app.py:226-230 | adding the handler's row keeps every count in the table positive |
| Guards.AdminAddGuide | app.py:313-336 | guide creation is refused exactly when the name, username or password is empty; otherwise the new row is a non-admin with the given name and username and the hashed password |
| Guards.AdminAddGuideCreatesWellFormedGuides | app.py:319-327 | guides created through the admin form always have a non-empty name and username and are never admins |

## Left out

- Clock.Greater: only models comparison with a naive right operand. The handlers compare only against the naive `time(14, 0)` and `time(17, 0)`. Comparing two aware times, with offset adjustment, is not modelled.
- The Jalali-to-Gregorian conversion and weekday computation (`jdatetime`), `time.fromisoformat` and werkzeug's `int` conversion are library code. They are parameters of the model, not definitions.
- Password hashing (`generate_password_hash`, `check_password_hash`) is a foreign library call. It is a parameter of `Guards.AdminAddGuide`.
- All PostgreSQL access is persistence I/O and is modelled only as the write a handler issues. This covers connections, commit and rollback, and the IntegrityError path for a duplicate username in `admin_add_guide`.
- The signed-in check at the top of each handler, the `admin_required` decorator, login and logout are session handling of the web framework.
- The Bad Request reply when a required form field such as `session_date` is missing is framework behaviour. Form fields are modelled as present strings.
- The other routes (`home`, `dashboard`, `add_mentee`, `edit_attendance`, `mentee_profile`, `admin_dashboard`, `admin_legion_view`) hold only session and ownership checks, not-found replies, defaults for missing fields, and database reads or writes. None of them touches the attendance rule or the two guards.
- The SQL aggregation queries (SUM of CD counts, GROUP BY journey type, LIMIT 20) are computed by the database.
- `create_tables_online` and `init_db.py` create the schema and seed data. init_db.py is not part of this model.

=== FILE: attendance.dfy ===
/** The attendance handlers `record_attendance` and `update_attendance`:
    date parse, lateness escalation, session-day gate, then the write. */
module Attendance {
  import opened Wrappers
  import opened Clock
  import opened Lateness

  /** The one decision both handlers make. */
  datatype Outcome =
    | DateFormatError        // the Jalali date did not parse: reply with the date-format message
    | UncaughtTypeError      // an aware time met a naive cutoff: the request fails with a server error
    | WrongDay               // parsed, but not a Thursday or Saturday: reply with the session-day message
    | Persist(status: string) // write the record with this final status

  /** The outcome rule over the results of the two library parses: the weekday
      of the session date (`None` when the date is malformed) and the session
      time the handler goes on to compare. */
  function Classify(weekday: Option<Weekday>, status: string, time: Option<Time>): (o: Outcome)
    ensures o.DateFormatError? <==> weekday.None?
    ensures o.WrongDay? <==> weekday.Some? && !IsSessionDay(weekday.value)
    ensures o.UncaughtTypeError? <==>
      weekday.Some? && IsSessionDay(weekday.value) && status == Present && time.Some? && !Naive(time.value)
    ensures o.Persist? ==> weekday.Some? && IsSessionDay(weekday.value)
    ensures o.Persist? ==> o.status == status || (status == Present && o.status == Late)
  {
    match weekday
    case None => DateFormatError
    case Some(d) =>
      match Escalate(d, status, time)
      case Raised => UncaughtTypeError
      case Settled(s) => if IsSessionDay(d) then Persist(s) else WrongDay
  }

  /** The form fields both handlers read. */
  datatype AttendanceForm = AttendanceForm(sessionDate: string, status: string, sessionTime: Option<string>)

  /** The two library parses the handlers rely on, as parameters: the Jalali
      date string to the weekday of its Gregorian date, and
      `time.fromisoformat`. `None` is the ValueError each may raise. */
  datatype Parsers = Parsers(weekdayOf: string -> Option<Weekday>, timeOf: string -> Option<Time>)

  /** The outcome for one submitted form: the parse of the date, the parse of
      the time and the classification, in the order both handlers run them.
      `RecordAttendance` and `UpdateAttendance` are stated over this
      composition. */
  function Decide(form: AttendanceForm, parsers: Parsers): Outcome
  {
    Classify(parsers.weekdayOf(form.sessionDate), form.status, SessionTime(form.sessionTime, parsers.timeOf))
  }

  /** What the client receives. */
  datatype Reply = DateFormatMessage | SessionDayMessage | ServerError | RedirectToDashboard

  /** The statement sent to the attendance table. The date and time are the
      form's own text; only the status may differ from what was submitted. */
  datatype Write =
    | Insert(menteeId: string, sessionDate: string, status: string, sessionTime: Option<string>)
    | Update(attendanceId: int, sessionDate: string, status: string, sessionTime: Option<string>)
  {
    function Status(): string
    {
      match this
      case Insert(_, _, s, _) => s
      case Update(_, _, s, _) => s
    }
  }

  datatype Response = Response(reply: Reply, write: Option<Write>)

  /** The reply for an outcome that writes nothing. */
  function Rejection(o: Outcome): (r: Reply)
    requires !o.Persist?
    ensures r != RedirectToDashboard
  {
    match o
    case DateFormatError => DateFormatMessage
    case UncaughtTypeError => ServerError
    case WrongDay => SessionDayMessage
  }

  /** `record_attendance`: inserts a new record for the mentee. */
  function RecordAttendance(menteeId: string, form: AttendanceForm, parsers: Parsers): (r: Response)
    ensures parsers.weekdayOf(form.sessionDate).None? ==> r == Response(DateFormatMessage, None)
    ensures r.write.Some? <==> r.reply == RedirectToDashboard
    ensures r.write.Some? ==>
      && parsers.weekdayOf(form.sessionDate).Some?
      && IsSessionDay(parsers.weekdayOf(form.sessionDate).value)
      && r.write.value.Insert?
      && r.write.value.menteeId == menteeId
      && r.write.value.sessionDate == form.sessionDate
      && r.write.value.sessionTime == form.sessionTime
      && (r.write.value.status == form.status || (form.status == Present && r.write.value.status == Late))
  {
    var o := Decide(form, parsers);
    if o.Persist? then
      Response(RedirectToDashboard, Some(Insert(menteeId, form.sessionDate, o.status, form.sessionTime)))
    else
      Response(Rejection(o), None)
  }

  /** `update_attendance`: rewrites date, status and time of an existing record. */
  function UpdateAttendance(attendanceId: int, form: AttendanceForm, parsers: Parsers): (r: Response)
    ensures parsers.weekdayOf(form.sessionDate).None? ==> r == Response(DateFormatMessage, None)
    ensures r.write.Some? <==> r.reply == RedirectToDashboard
    ensures r.write.Some? ==>
      && parsers.weekdayOf(form.sessionDate).Some?
      && IsSessionDay(parsers.weekdayOf(form.sessionDate).value)
      && r.write.value.Update?
      && r.write.value.attendanceId == attendanceId
      && r.write.value.sessionDate == form.sessionDate
      && r.write.value.sessionTime == form.sessionTime
      && (r.write.value.status == form.status || (form.status == Present && r.write.value.status == Late))
  {
    var o := Decide(form, parsers);
    if o.Persist? then
      Response(RedirectToDashboard, Some(Update(attendanceId, form.sessionDate, o.status, form.sessionTime)))
    else
      Response(Rejection(o), None)
  }

  /** A malformed date rejects the request whatever the status and time, and
      nothing is written. */
  lemma MalformedDateRejects(menteeId: string, attendanceId: int, form: AttendanceForm, parsers: Parsers)
    requires parsers.weekdayOf(form.sessionDate).None?
    ensures Decide(form, parsers) == DateFormatError
    ensures RecordAttendance(menteeId, form, parsers).write.None?
    ensures UpdateAttendance(attendanceId, form, parsers).write.None?
  {
  }

  /** A record is written exactly when the date parses to Thursday or Saturday
      and no TypeError escaped the lateness step; every other parsed weekday
      is refused with the session-day message. */
  lemma WrittenOnlyOnSessionDays(menteeId: string, form: AttendanceForm, parsers: Parsers)
    ensures RecordAttendance(menteeId, form, parsers).write.Some? <==>
      && parsers.weekdayOf(form.sessionDate).Some?
      && IsSessionDay(parsers.weekdayOf(form.sessionDate).value)
      && Escalate(parsers.weekdayOf(form.sessionDate).value, form.status,
                  SessionTime(form.sessionTime, parsers.timeOf)).Settled?
    ensures parsers.weekdayOf(form.sessionDate).Some? && !IsSessionDay(parsers.weekdayOf(form.sessionDate).value) ==>
      RecordAttendance(menteeId, form, parsers) == Response(SessionDayMessage, None)
  {
  }

  /** The two handlers agree: the same reply, a write in the same cases, and
      the same final status. The source repeats the same decision code in
      both handlers, character for character; the model defines it once, in
      `Decide`, so the agreement follows from that shared definition and the
      lemma records what the two handlers therefore have in common. */
  lemma RecordAndUpdateAgree(menteeId: string, attendanceId: int, form: AttendanceForm, parsers: Parsers)
    ensures RecordAttendance(menteeId, form, parsers).reply == UpdateAttendance(attendanceId, form, parsers).reply
    ensures RecordAttendance(menteeId, form, parsers).write.Some? <==> UpdateAttendance(attendanceId, form, parsers).write.Some?
    ensures RecordAttendance(menteeId, form, parsers).write.Some? ==>
      RecordAttendance(menteeId, form, parsers).write.value.Status() == UpdateAttendance(attendanceId, form, parsers).write.value.Status()
  {
  }

  /** The stored status, for a naive parsed time, follows the reference rule:
      "late" exactly when "present" was requested past the day's cutoff,
      otherwise the requested status. */
  lemma StoredStatusFollowsCutoffRule(menteeId: string, form: AttendanceForm, parsers: Parsers, d: Weekday, t: Time)
    requires parsers.weekdayOf(form.sessionDate) == Some(d) && IsSessionDay(d)
    requires form.sessionTime.Some? && form.sessionTime.value != ""
    requires parsers.timeOf(form.sessionTime.value) == Some(t) && Valid(t) && Naive(t)
    ensures RecordAttendance(menteeId, form, parsers).write.Some?
    ensures RecordAttendance(menteeId, form, parsers).write.value.status ==
      if form.status == Present && ArrivesLate(d, t) then Late else form.status
  {
    EscalateMatchesCutoffRule(d, form.status, t);
  }

  /** Example: "present" at 14:01 on a Thursday is stored as "late". */
  lemma ThursdayAfterCutoffStoresLate(menteeId: string, form: AttendanceForm, parsers: Parsers)
    requires parsers.weekdayOf(form.sessionDate) == Some(Thursday)
    requires form.status == Present && form.sessionTime.Some? && form.sessionTime.value != ""
    requires parsers.timeOf(form.sessionTime.value) == Some(At(14, 1))
    ensures RecordAttendance(menteeId, form, parsers).write.Some?
    ensures RecordAttendance(menteeId, form, parsers).write.value.status == Late
  {
    StoredStatusFollowsCutoffRule(menteeId, form, parsers, Thursday, At(14, 1));
  }

  /** The handlers add no status of their own beyond "late": if every requested
      status lies in a set that contains "late", so does every stored one. */
  lemma StoredStatusStaysInVocabulary(menteeId: string, attendanceId: int, form: AttendanceForm, parsers: Parsers, allowed: set<string>)
    requires Late in allowed && form.status in allowed
    ensures RecordAttendance(menteeId, form, parsers).write.Some? ==>
      RecordAttendance(menteeId, form, parsers).write.value.status in allowed
    ensures UpdateAttendance(attendanceId, form, parsers).write.Some? ==>
      UpdateAttendance(attendanceId, form, parsers).write.value.status in allowed
  {
  }
}

=== FILE: clock.dfy ===
/** Python's `datetime.time` as far as the attendance rule uses it: the value
    `time.fromisoformat` produces, and the `>` comparison against a fixed
    cutoff such as `time(14, 0)`. */
module Clock {
  import opened Wrappers

  /** A time of day. `utcOffset` is present exactly when the ISO text carried
      an offset ("15:00+03:30"), and the time is then aware; a time without
      one is naive. Only its presence matters to the comparisons modelled
      here. */
  datatype Time = Time(hour: int, minute: int, second: int, micro: int, utcOffset: Option<int>)

  /** The ranges `datetime.time` enforces on every value it constructs. */
  predicate Valid(t: Time)
  {
    && 0 <= t.hour < 24
    && 0 <= t.minute < 60
    && 0 <= t.second < 60
    && 0 <= t.micro < 1_000_000
  }

  predicate Naive(t: Time)
  {
    t.utcOffset.None?
  }

  /** `time(hour, minute)`: a naive time on the minute. */
  function At(hour: int, minute: int): Time
  {
    Time(hour, minute, 0, 0, None)
  }

  /** The tuple Python compares when both operands have the same offset. */
  function Fields(t: Time): seq<int>
  {
    [t.hour, t.minute, t.second, t.micro]
  }

  /** Python's `a > b` on two tuples of ints of the same length: the first
      position where they differ decides, and equal tuples are not greater. */
  predicate TupleGreater(a: seq<int>, b: seq<int>)
    requires |a| == |b|
    decreases |a|
  {
    |a| > 0 && (a[0] > b[0] || (a[0] == b[0] && TupleGreater(a[1..], b[1..])))
  }

  /** `a > b` for a time `a` and a naive time `b`. `None` stands for the
      TypeError Python raises when one operand is naive and the other is
      aware; otherwise the field tuples are compared. */
  function Greater(a: Time, b: Time): (r: Option<bool>)
    requires Naive(b)
    ensures r.None? <==> !Naive(a)
  {
    if Naive(a) then Some(TupleGreater(Fields(a), Fields(b))) else None
  }

  /** Reference order: microseconds elapsed since midnight. */
  function MicrosOfDay(t: Time): int
  {
    ((t.hour * 60 + t.minute) * 60 + t.second) * 1_000_000 + t.micro
  }

  /** Everything below the hour contributes less than one hour. */
  lemma BelowHourBounds(t: Time)
    requires Valid(t)
    ensures t.hour * 3_600_000_000 <= MicrosOfDay(t) < (t.hour + 1) * 3_600_000_000
  {
  }

  /** On valid times, Python's field-by-field comparison is exactly the order
      of the instants within the day. */
  lemma TupleGreaterIsLaterInDay(a: Time, b: Time)
    requires Valid(a) && Valid(b)
    ensures TupleGreater(Fields(a), Fields(b)) <==> MicrosOfDay(a) > MicrosOfDay(b)
  {
    var fa, fb := Fields(a), Fields(b);
    assert fa[1..] == [a.minute, a.second, a.micro];
    assert fb[1..] == [b.minute, b.second, b.micro];
    assert fa[1..][1..] == [a.second, a.micro];
    assert fb[1..][1..] == [b.second, b.micro];
    assert fa[1..][1..][1..] == [a.micro];
    assert fb[1..][1..][1..] == [b.micro];
    assert fa[1..][1..][1..][1..] == [];
    assert fb[1..][1..][1..][1..] == [];
    assert TupleGreater(fa[1..][1..][1..], fb[1..][1..][1..]) <==> a.micro > b.micro;
    assert TupleGreater(fa[1..][1..], fb[1..][1..]) <==>
      a.second > b.second || (a.second == b.second && a.micro > b.micro);
    assert TupleGreater(fa[1..], fb[1..]) <==>
      a.minute > b.minute || (a.minute == b.minute &&
        (a.second > b.second || (a.second == b.second && a.micro > b.micro)));
    BelowHourBounds(a);
    BelowHourBounds(b);
  }

  /** What `Greater` answers for two naive valid times: the later instant is the greater. */
  lemma GreaterIsLaterInDay(a: Time, b: Time)
    requires Valid(a) && Valid(b) && Naive(a) && Naive(b)
    ensures Greater(a, b) == Some(MicrosOfDay(a) > MicrosOfDay(b))
  {
    TupleGreaterIsLaterInDay(a, b);
  }
}

=== FILE: guards.dfy ===
/** The two input guards outside the attendance rule: the CD count of
    `record_guide_cds` and the required fields of `admin_add_guide`. */
module Guards {
  import opened Wrappers

  /** A row of the guide_cds table. */
  datatype CdRow = CdRow(guideId: int, recordDate: string, count: int)

  /** `request.form.get('cd_count', 0, type=int)`: the field converted by
      `int`, or 0 when it is missing or the conversion fails. */
  function CdCount(raw: Option<string>, toInt: string -> Option<int>): (n: int)
    ensures raw.None? ==> n == 0
    ensures raw.Some? && toInt(raw.value).None? ==> n == 0
    ensures n != 0 ==> raw.Some? && toInt(raw.value) == Some(n)
    ensures raw.Some? && toInt(raw.value).Some? ==> n == toInt(raw.value).value
  {
    match raw
    case None => 0
    case Some(s) =>
      match toInt(s)
      case None => 0
      case Some(n) => n
  }

  /** `record_guide_cds`: the row it inserts, if any. The reply is always a
      redirect to the dashboard. */
  function RecordGuideCds(guideId: int, recordDate: string, raw: Option<string>, toInt: string -> Option<int>): (w: Option<CdRow>)
    ensures w.Some? <==> raw.Some? && toInt(raw.value).Some? && toInt(raw.value).value > 0
    ensures w.Some? ==> w.value == CdRow(guideId, recordDate, toInt(raw.value).value)
  {
    var n := CdCount(raw, toInt);
    if n > 0 then Some(CdRow(guideId, recordDate, n)) else None
  }

  predicate AllCountsPositive(rows: seq<CdRow>)
  {
    forall i :: 0 <= i < |rows| ==> rows[i].count > 0
  }

  /** Every row the handler adds has a positive count, so a table filled only
      through it never holds a zero or negative count. */
  lemma RecordGuideCdsKeepsCountsPositive(rows: seq<CdRow>, guideId: int, recordDate: string, raw: Option<string>, toInt: string -> Option<int>)
    requires AllCountsPositive(rows)
    ensures var w := RecordGuideCds(guideId, recordDate, raw, toInt);
      AllCountsPositive(if w.Some? then rows + [w.value] else rows)
  {
  }

  /** A row of the guides table as the admin form creates it. */
  datatype GuideRow = GuideRow(name: string, username: string, passwordHash: string, isAdmin: bool)

  datatype AddGuide = MissingFields | InsertGuide(row: GuideRow)

  /** `admin_add_guide`: refuses when any of name, username or password is
      empty; otherwise inserts a non-admin guide with the hashed password.
      Both paths redirect to the admin dashboard. */
  function AdminAddGuide(name: string, username: string, password: string, hash: string -> string): (r: AddGuide)
    ensures r.MissingFields? <==> name == "" || username == "" || password == ""
    ensures r.InsertGuide? ==>
      && r.row.name == name && r.row.username == username
      && r.row.passwordHash == hash(password)
      && !r.row.isAdmin
  {
    if name == "" || username == "" || password == "" then MissingFields
    else InsertGuide(GuideRow(name, username, hash(password), false))
  }

  /** Guides created through the admin form always have a name and a
      username and never hold admin rights. */
  predicate WellFormedGuide(g: GuideRow)
  {
    g.name != "" && g.username != "" && !g.isAdmin
  }

  lemma AdminAddGuideCreatesWellFormedGuides(rows: seq<GuideRow>, name: string, username: string, password: string, hash: string -> string)
    requires forall i :: 0 <= i < |rows| ==> WellFormedGuide(rows[i])
    ensures var r := AdminAddGuide(name, username, password, hash);
      var rows' := if r.InsertGuide? then rows + [r.row] else rows;
      forall i :: 0 <= i < |rows'| ==> WellFormedGuide(rows'[i])
  {
  }
}

=== FILE: lateness.dfy ===
/** The lateness escalation of the attendance handlers: a requested "present"
    becomes "late" when the session time is past the cutoff of the day. */
module Lateness {
  import opened Wrappers
  import opened Clock

  /** Python's `date.weekday()`: 0 is Monday, 6 is Sunday. */
  type Weekday = d: int | 0 <= d < 7

  const Thursday: Weekday := 3
  const Saturday: Weekday := 5

  /** The status strings the handlers compare and store, in the guides' language. */
  const Present: string := "\U{62D}\U{627}\U{636}\U{631}"
  const Late: string := "\U{62A}\U{627}\U{62E}\U{6CC}\U{631}"

  const ThursdayCutoff: Time := At(14, 0)
  const SaturdayCutoff: Time := At(17, 0)

  /** The two weekdays on which attendance may be written. */
  predicate IsSessionDay(d: Weekday)
  {
    d == Thursday || d == Saturday
  }

  /** What the lateness step leaves behind: the status to store, or the
      TypeError of comparing an aware time with a naive cutoff, which the
      handler's `except ValueError` does not catch. */
  datatype Step = Settled(status: string) | Raised

  /** The parsed session time the handler compares, if any: nothing when the
      form field is missing or empty, nor when `time.fromisoformat` rejects it
      (that ValueError is swallowed). */
  function SessionTime(text: Option<string>, parse: string -> Option<Time>): (t: Option<Time>)
    ensures (text.None? || text == Some("")) ==> t.None?
    ensures t.Some? ==> text.Some? && parse(text.value) == t
    ensures text.Some? && text.value != "" ==> t == parse(text.value)
  {
    if text.Some? && text.value != "" then parse(text.value) else None
  }

  /** The escalation exactly as the handlers branch: Thursday against 14:00,
      otherwise Saturday against 17:00, each comparison strict. */
  function Escalate(d: Weekday, status: string, time: Option<Time>): (s: Step)
    ensures s.Raised? <==> status == Present && time.Some? && !Naive(time.value) && IsSessionDay(d)
    ensures s.Settled? && s.status != status ==> status == Present && s.status == Late && IsSessionDay(d)
  {
    if status == Present && time.Some? then
      if d == Thursday then
        match Greater(time.value, ThursdayCutoff)
        case None => Raised
        case Some(after) => if after then Settled(Late) else Settled(status)
      else if d == Saturday then
        match Greater(time.value, SaturdayCutoff)
        case None => Raised
        case Some(after) => if after then Settled(Late) else Settled(status)
      else
        Settled(status)
    else
      Settled(status)
  }

  /** Reference definition of the rule: the cutoff that applies on a weekday. */
  function CutoffOn(d: Weekday): Option<Time>
  {
    if d == Thursday then Some(ThursdayCutoff)
    else if d == Saturday then Some(SaturdayCutoff)
    else None
  }

  /** Reference definition of lateness: strictly more microseconds since
      midnight than the day's cutoff. */
  predicate ArrivesLate(d: Weekday, t: Time)
  {
    CutoffOn(d).Some? && MicrosOfDay(t) > MicrosOfDay(CutoffOn(d).value)
  }

  /** For every parsed naive time, the branching of the handlers agrees with
      the reference rule: "present" escalates exactly when the time is past
      the day's cutoff, and every other status is kept. */
  lemma EscalateMatchesCutoffRule(d: Weekday, status: string, t: Time)
    requires Valid(t) && Naive(t)
    ensures Escalate(d, status, Some(t)) == Settled(if status == Present && ArrivesLate(d, t) then Late else status)
  {
    if d == Thursday {
      GreaterIsLaterInDay(t, ThursdayCutoff);
    } else if d == Saturday {
      GreaterIsLaterInDay(t, SaturdayCutoff);
    }
  }

  /** Thursday: late exactly when the time is strictly after 14:00:00.000000. */
  lemma ThursdayBoundary(t: Time)
    requires Valid(t) && Naive(t)
    ensures Escalate(Thursday, Present, Some(t)) == Settled(Late) <==>
      t.hour > 14 || (t.hour == 14 && (t.minute > 0 || t.second > 0 || t.micro > 0))
    ensures Escalate(Thursday, Present, Some(t)) != Settled(Late) ==> Escalate(Thursday, Present, Some(t)) == Settled(Present)
  {
    EscalateMatchesCutoffRule(Thursday, Present, t);
    BelowHourBounds(t);
  }

  /** Saturday: late exactly when the time is strictly after 17:00:00.000000. */
  lemma SaturdayBoundary(t: Time)
    requires Valid(t) && Naive(t)
    ensures Escalate(Saturday, Present, Some(t)) == Settled(Late) <==>
      t.hour > 17 || (t.hour == 17 && (t.minute > 0 || t.second > 0 || t.micro > 0))
    ensures Escalate(Saturday, Present, Some(t)) != Settled(Late) ==> Escalate(Saturday, Present, Some(t)) == Settled(Present)
  {
    EscalateMatchesCutoffRule(Saturday, Present, t);
    BelowHourBounds(t);
  }

  /** The edges: 14:00 on Thursday and 17:00 on Saturday are still on time,
      one microsecond later is late, and the Thursday cutoff does not apply
      on Saturday (15:00 on Saturday is on time). */
  lemma BoundaryExamples()
    ensures Escalate(Thursday, Present, Some(At(14, 0))) == Settled(Present)
    ensures Escalate(Thursday, Present, Some(Time(14, 0, 0, 1, None))) == Settled(Late)
    ensures Escalate(Thursday, Present, Some(At(14, 1))) == Settled(Late)
    ensures Escalate(Saturday, Present, Some(At(15, 0))) == Settled(Present)
    ensures Escalate(Saturday, Present, Some(At(17, 0))) == Settled(Present)
    ensures Escalate(Saturday, Present, Some(Time(17, 0, 0, 1, None))) == Settled(Late)
  {
  }

  /** A status other than "present" is never changed, whatever the day or time. */
  lemma OtherStatusKept(d: Weekday, status: string, time: Option<Time>)
    requires status != Present
    ensures Escalate(d, status, time) == Settled(status)
  {
  }

  /** On a day that is not a session day nothing escalates and nothing raises. */
  lemma NoEscalationOffSessionDays(d: Weekday, status: string, time: Option<Time>)
    requires !IsSessionDay(d)
    ensures Escalate(d, status, time) == Settled(status)
  {
  }

  /** A missing, empty or unparseable time field leaves the status as requested
      and produces no error. */
  lemma UnusableTimeKeepsStatus(d: Weekday, status: string, text: Option<string>, parse: string -> Option<Time>)
    requires text.None? || text == Some("") || parse(text.value).None?
    ensures Escalate(d, status, SessionTime(text, parse)) == Settled(status)
  {
  }

  /** Lateness is upward closed: once a time is late, every later time of the
      same day is late too. */
  lemma LatenessIsMonotone(d: Weekday, t: Time, u: Time)
    requires Valid(t) && Naive(t) && Valid(u) && Naive(u)
    requires MicrosOfDay(t) <= MicrosOfDay(u)
    requires Escalate(d, Present, Some(t)) == Settled(Late)
    ensures Escalate(d, Present, Some(u)) == Settled(Late)
  {
    EscalateMatchesCutoffRule(d, Present, t);
    EscalateMatchesCutoffRule(d, Present, u);
  }
}

=== FILE: wrappers.dfy ===
/** The optional-value type used throughout the model: a form field that may be
    missing, or a library parse that may fail. */
module Wrappers {

  datatype Option<+T> = None | Some(value: T)
}
